=== FILE: README.md ===
# DeepKey path engine in Dafny

A model of the path-addressed mutation engine of DeepKey's `index.js`. DeepKey loads
a JSON file into memory and edits it through paths, which are non-empty sequences of
property names. The model covers these parts:

- `traverseObj` and `JSONFile.get`: look up a path one own property at a time.
- `isLeafNode`: decide whether a value counts as a "leaf node".
- `JSONFile.set`: store a value at a path. A segment that collides is renamed to
  `key1`, `key2`, ... An optional collision policy may merge into an existing value
  instead. The call returns the path it actually used.
- `JSONFile.delete`: remove the property at a path. Ancestors left empty are then
  pruned, up to but not including the root.

The document is an immutable `Json` tree (`JsonTree.Json`). Objects are `map<string, Json>`.
Every operation is a pure function that returns the new document, or the JavaScript
exception the source would raise. That exception is always a `TypeError`.

Files and modules:

- `json.dfy`, module `JsonTree`: the value type, JavaScript truthiness, the leaf-node
  predicate, and the "only adds keys" relation `Extends`.
- `decimal.dfy`, module `Decimal`: the decimal rendering of rename suffixes and its
  inverse.
- `suffixes.dfy`, module `Suffixes`: the candidate names `key`, `key1`, `key2`, ...,
  their injectivity, the pigeonhole bound that makes the searches terminate, and the
  two rename searches.
- `lookup.dfy`, module `Lookup`: `traverseObj` and `get`.
- `leaf.dfy`, module `LeafNode`: the `for ... in` scan of `isLeafNode`.
- `insert.dfy`, module `Insert`: `set`.
- `removal.dfy`, module `Removal`: `delete`.

## Behaviour as written

Several edge cases of `index.js` differ from the intuitive reading. The model follows
the code:

- `isLeafNode` returns `undefined`, which is falsy, for every non-object: numbers,
  strings, booleans and absent values (index.js:20). So `set` does not rename around
  an existing scalar on an intermediate segment. It descends into the scalar, and the
  next strict-mode property write on it throws (index.js:128 or index.js:152). See
  `Insert.DescendsIntoScalar`. `null` is a leaf, so it is renamed around. See
  `Insert.RenamesAroundNull`.
- An object is a leaf when no own property holds a non-null object. This is a shallow
  check: `{a: {}}` is not a leaf, because `{}` is an object. The check does not look
  at whether the children are themselves leaves.
- `set` throws only before it has written anything. Once a fresh `{}` has been
  created, every later segment is free (`Insert.FreshNeverFails`). So the model's
  error outcome carries no document: the source's document is unchanged when it
  throws. It throws exactly when the root is not an object, or when the
  walk itself reaches an existing number, string or boolean above the last
  segment (`Insert.SetThrowsExactly`). A scalar the walk does not enter does
  no harm: `{a: {x: 1}}` is a leaf node, so `set(["a","x","z"])` renames `a`
  to `a1` and succeeds (`Insert.RenamesAroundLeafContainer`).
- A `null` met strictly inside a path makes `hasOwnProperty` throw in `traverseObj`
  (index.js:10). This is `Lookup.ThrowsOnlyAtNull`.
- In `delete`, a missing intermediate segment makes `traverseObj` return `undefined`,
  and index.js:96 then throws. The call does not return `undefined`. See
  `Removal.Outcomes`.
- `delete` returns the removed value only when it is truthy, or when nothing above
  it was pruned. Otherwise it returns the emptied parent `{}` (index.js:98-100). See
  `Removal.ReturnedValue` and the finding below.
- `set` returns the path it used even when the policy merged. In that case no
  assignment happens and the document is unchanged (`Insert.MergeLeavesDocument`).

## Model

| member | source | states |
|---|---|---|
| Lookup.Get | index.js:70-76 | Needs a non-empty path. A value is found only under an object root that owns the first segment. A `null` root throws. A scalar root gives `undefined`. |
| Lookup.TraverseAppend | index.js:6-16 | Looking up `p + q` means looking up `p`, then `q` from the value found. A miss or a throw along `p` is the final result. |
| Lookup.StopsAtFirstMissing | index.js:8-13 | If a prefix reaches an object that lacks the next segment, the whole lookup is `undefined`. |
| Lookup.ScalarMidPath | index.js:10 | A scalar reached before the end of the path gives `undefined`. A `null` reached there throws. |
| Lookup.ThrowsOnlyAtNull | index.js:10 | A lookup throws exactly when some strict prefix of the path reaches `null`. |
| Lookup.FoundStepsThroughObjects | index.js:8-15 | A found path passes only through objects. Each of them owns the next segment, and each step yields that property's value. |
| LeafNode.IsLeafNode | index.js:18-35 | The scan answers true exactly for `null`, or for an object with no own property holding a non-null object. For any other non-object it answers false. |
| Decimal.ToDecimal | index.js:124 | A suffix is a non-empty string of decimal digits with no leading zero. |
| Decimal.ParseToDecimal | index.js:124 | Parsing a rendered suffix gives back the number. |
| Decimal.ToDecimalInjective | index.js:124 | Distinct numbers give distinct suffixes. |
| Suffixes.Candidate | index.js:123-124 | Candidate 0 is the segment itself. Every later candidate is strictly longer and starts with the original segment. |
| Suffixes.CandidateSuffix | index.js:124 | What follows the original segment in candidate `j` is a digit string that reads back as `j` alone, so suffixes never accumulate onto an earlier candidate: candidate 2 of `a` is `a2`, never `a12`. |
| Suffixes.CandidateInjective | index.js:149 | Distinct suffix indices give distinct candidate names. |
| Suffixes.CandidatesBounded | index.js:123 | An object with `n` keys holds at most `n` candidates of one segment, so a rename search stops within `n + 1` tries. |
| Suffixes.FreeCandidateExists | index.js:137 | Some candidate among the first `n + 1` is not an own property. |
| Suffixes.IntermediateSlot | index.js:123-125 | The intermediate search returns the first candidate that is not a leaf node. Every earlier candidate exists and is a leaf. |
| Suffixes.FinalSlot | index.js:137-150 | The final search asks the policy about each occupied candidate in order. It stops at the first merge, or else at the first candidate that is not an own property. Every earlier candidate is occupied and was declined. |
| Suffixes.NoPolicyPicksFirstFree | index.js:137-152 | Without a policy, the final search never merges and picks the first candidate that is not an own property. |
| Insert.Set | index.js:110-159 | The returned path is as long as the requested one. Success means the root is an object. A success without a merge changes the document. |
| Insert.SetThrowsExactly | index.js:118-156 | `set` throws if and only if the root is not an object, or the walk, following at each depth the first non-leaf candidate of the old container, reaches an existing number, string or boolean above the last segment. |
| Insert.SetSucceeds | index.js:118-156 | A corollary: on an object root with no number, string or boolean anywhere above the last segment, `set` succeeds. |
| Insert.ThrowsOnlyAtScalar | index.js:121-131 | A corollary: when `set` throws on an object root, the scalar it wrote onto lies under candidate names of the requested segments. |
| Insert.RenamesAroundLeafContainer | index.js:121-131 | On `{a: {x: 1}}`, `set(["a","x","z"], 2)` renames around the leaf `a`, creates `a1.x.z` and returns `["a1","x","z"]`, although a scalar sits under `a.x`. |
| Insert.Nest | index.js:127-131 | The branch built where nothing existed has exactly one key per level, and following the path through it reaches the value. |
| Insert.FreshNeverFails | index.js:127-131 | Below a freshly created `{}`, `set` always succeeds, keeps the requested names, never merges, and builds exactly the nested branch. So a throw happens before any write. |
| Insert.KeepsOffPath | index.js:118-156 | Every path that neither leads to nor passes through the stored value looks up exactly as before, so `set` touches nothing off its path. |
| Insert.ParentsAreContainers | index.js:121-131 | At every depth, the old value above the segment being resolved is a container, or is missing because this call creates it. |
| Insert.SetThenGet | index.js:152-158 | When no merge happens, `get` on the returned path yields the stored value. |
| Insert.MergeLeavesDocument | index.js:140-146 | After a merge the document is unchanged, and the returned path leads to the existing value the policy accepted. |
| Insert.SetOnlyAdds | index.js:118-153 | `set` never overwrites or removes an own property. The new document only adds keys to the old one. |
| Insert.ExtendsKeepsLookups | index.js:127-131 | A document that only gained keys still answers every earlier successful lookup. A scalar found before is found unchanged. |
| Insert.SetKeepsLookups | index.js:118-153 | Every lookup that succeeded before a `set` still succeeds after it. Scalars stay exactly as they were. |
| Insert.SetRenamesWithinCandidates | index.js:118-156 | Each segment of the returned path is one of the candidates of the requested segment. |
| Insert.IntermediateSegment | index.js:121-131 | Each intermediate segment, at any depth, resolves to the first candidate that is not a leaf of the old container. Every earlier candidate is a leaf, and the returned path leads through the chosen one. |
| Insert.IntermediateKept | index.js:127-131 | An existing subtree under an intermediate segment, at any depth, is kept: after the call the returned path still reaches it, only extended with new keys. |
| Insert.IntermediateCreated | index.js:127-131 | An absent intermediate segment, at any depth, is created as `{}` and filled with exactly the rest of the requested path, whose names are kept. |
| Insert.LastSegment | index.js:137-152 | The last segment, under a parent at any depth, resolves to the first candidate the policy merges into, with the document untouched. Otherwise it resolves to the first candidate that is not an own property of the old parent, and the returned path leads to the value. All earlier candidates are occupied and were declined. |
| Insert.DescendsIntoScalar | index.js:123-131 | An intermediate segment holding a scalar is not renamed around. `set` descends into it and throws. |
| Insert.RenamesAroundNull | index.js:123-125 | An intermediate segment holding `null` is renamed around, and the `null` is kept. |
| Insert.CollisionRenames | index.js:137-152 | Setting `["a"]` to 1 and then to 2 without a policy gives `{a: 1, a1: 2}`, and the second call returns `["a1"]`. |
| Removal.Delete | index.js:78-108 | A removal needs an object root. The root stays an object and only loses keys. |
| Removal.Outcomes | index.js:90-96 | A value is removed exactly when the whole path is found. `undefined` comes back, with no change, exactly when the parent is found, is not `null` and lacks the last segment. Every other case throws. |
| Removal.RemovesTarget | index.js:102 | After a removal the path no longer leads anywhere. |
| Removal.KeepsOffPath | index.js:88-105 | Every path that neither leads to nor passes through the removed property looks up exactly as before. |
| Removal.EmptiedExactly | index.js:105 | A node is left empty exactly when no container from it down to the target's parent had a second property. |
| Removal.PrunesExactly | index.js:88-105 | An ancestor strictly below the root survives exactly when it, or some container below it on the path, had a second property. Every surviving ancestor is non-empty. The root is never removed. |
| Removal.ParentKept | index.js:105 | Removing one property leaves a container non-empty only if it had a second property. |
| Removal.ReturnedValue | index.js:98-107 | The returned value is the target when the target is truthy or when its parent was not pruned. Otherwise it is the emptied parent, `{}`. |
| Removal.PruningExamples | index.js:88-105 | Deleting `["a","b","c"]` from `{a:{b:{c:1}}}` leaves `{}`. With a sibling `d` under `b`, pruning stops at `b`. |
| Removal.DeleteIntended | index.js:98-100 | The corrected `delete` removes a value exactly when the path is found, and it returns the value found there. |
| Removal.IntendedAgrees | index.js:88-105 | The corrected `delete` prunes exactly like the as-written one. |
| Removal.FalsyTargetReplaced | index.js:98-100 | On `{a: {b: 0}}`, deleting `["a","b"]` returns `{}` instead of `0`. The corrected version returns `0`. |

## Left out

- The constructor (index.js:39-51) is not modelled. It reads the file, parses the JSON, and detects the indentation with the `detect-indent` library, falling back to `'\t'`. All of that is I/O or foreign code. The document is a parameter of every operation instead.
- `hasChanged` and `save` (index.js:53-65) are not modelled. They rest on `JSON.stringify` string comparison and on `fs.writeFileSync`. Note that `save` never refreshes the snapshot taken at load, so a second `save` after a change writes again.
- Side effects of the collision policy are not modelled. The policy may mutate the existing value in place; that is caller code. The model treats the policy as a pure `(existing, new) -> bool`.
- Arrays are folded into objects keyed by index strings. Their `length` property, holes left by `delete`, and `instanceof Array` are not modelled.
- Strings are treated as scalars without own properties. In JavaScript, `'abc'.hasOwnProperty('0')` is true.
- Inherited properties are not modelled. For example, `obj['__proto__']` reads `Object.prototype`, which `isLeafNode` calls a leaf. A JSON key literally named `hasOwnProperty` is not modelled either.
- Insert.Set: the stored value is a JSON value (`null`, boolean, number, string or object). JavaScript also lets a caller store `undefined`, a function or a class instance. A stored `undefined` is an own property that `get` reports like a miss, and a later `set` of the same segment renames around it. The model does not cover these.
- Aliasing of the stored `value` is not modelled. The tree is a value, not a graph of references.
- Numbers are integer payloads. Floating point, `NaN` and `-0` are not modelled, so truthiness of a number is `n != 0`.
- Decimal.ToDecimal: renders every natural number exactly. JavaScript numbers are exact only up to 2^53, a suffix no real search reaches.
- The `instanceof Array` assertions (index.js:72, index.js:80, index.js:112) are covered by Dafny's types. Only the non-empty-path assertion remains, as a precondition.
- The order of keys is not modelled. Maps are unordered, and no modelled operation depends on the order.

## Findings

| source | as written | input that shows it | evidently intended | confidence | as-written member | corrected member |
|---|---|---|---|---|---|---|
| index.js:98-100 | `if (!removed)` tests truthiness, so a falsy target (`0`, `false`, `null`, `""`) is overwritten by the emptied parent pruned in the next round | `delete(["a","b"])` on `{a: {b: 0}}` returns `{}` | return the value removed at the requested path, `0` | medium, not executed | Removal.FalsyTargetReplaced | Removal.DeleteIntended |

=== FILE: decimal.dfy ===
/** The decimal rendering of a non-negative integer, as JavaScript's template
    literal `${j}` produces it for the rename suffixes, and its inverse. */
module Decimal {

  predicate IsDigit(c: char)
  {
    '0' <= c <= '9'
  }

  predicate AllDigits(s: string)
  {
    forall i :: 0 <= i < |s| ==> IsDigit(s[i])
  }

  function DigitChar(d: nat): (c: char)
    requires d < 10
    ensures IsDigit(c)
  {
    ('0' as int + d) as char
  }

  function DigitValue(c: char): (d: nat)
    requires IsDigit(c)
    ensures d < 10
  {
    c as int - '0' as int
  }

  /** Decimal digits of `n`, most significant first, without leading zeros. */
  function ToDecimal(n: nat): (s: string)
    ensures 1 <= |s|
    ensures AllDigits(s)
    ensures |s| > 1 ==> s[0] != '0'
  {
    if n < 10 then [DigitChar(n)] else ToDecimal(n / 10) + [DigitChar(n % 10)]
  }

  /** Reads a string of decimal digits back as a number. */
  function ParseDecimal(s: string): (n: nat)
    requires AllDigits(s)
  {
    if |s| == 0 then 0 else 10 * ParseDecimal(s[..|s| - 1]) + DigitValue(s[|s| - 1])
  }

  /** Parsing undoes rendering. */
  lemma {:induction false} ParseToDecimal(n: nat)
    ensures ParseDecimal(ToDecimal(n)) == n
  {
    var s := ToDecimal(n);
    if n >= 10 {
      ParseToDecimal(n / 10);
      assert s[..|s| - 1] == ToDecimal(n / 10);
    }
  }

  /** Distinct numbers render to distinct strings. */
  lemma ToDecimalInjective(a: nat, b: nat)
    ensures ToDecimal(a) == ToDecimal(b) ==> a == b
  {
    ParseToDecimal(a);
    ParseToDecimal(b);
  }
}

=== FILE: insert.dfy ===
/** `JSONFile.set`: store a value at a path, renaming segments that collide,
    and return the path actually used. */
module Insert {
  import opened JsonTree
  import opened Suffixes
  import opened Lookup

  /** `Done` carries the document after the call, the resolved path and
      whether the last segment was merged by the policy (then nothing was
      assigned); `WriteThrew` is the TypeError of reading from `null` or
      writing onto a primitive, raised before anything was written. */
  datatype SetResult = Done(doc: Json, path: seq<string>, merged: bool) | WriteThrew

  /** Walks `path` from `node`. Each intermediate segment resolves to the
      first candidate that is not a leaf node, created as `{}` only when
      absent, and the walk descends into it (into a scalar too, which makes
      the next write throw). The last segment resolves to the first
      candidate the policy merges into, or else the first free candidate,
      where `value` is stored. */
  function Set(node: Json, path: seq<string>, value: Json, policy: Policy): (r: SetResult)
    requires |path| > 0
    ensures r.Done? ==> |r.path| == |path|
    ensures r.Done? ==> node.Obj? && r.doc.Obj?
    ensures r.Done? && !r.merged ==> r.doc != node
    decreases |path|
  {
    if !node.Obj? then WriteThrew
    else
      var m := node.fields;
      var key := path[0];
      if |path| == 1 then
        var s := FinalSlot(m, key, value, policy, 0);
        var name := Candidate(key, s.index);
        if s.merged then Done(node, [name], true)
        else Done(Obj(m[name := value]), [name], false)
      else
        var name := Candidate(key, IntermediateSlot(m, key, 0));
        var child := if name in m then m[name] else Obj(map[]);
        match Set(child, path[1..], value, policy)
        case Done(c, rest, merged) => Done(Obj(m[name := c]), [name] + rest, merged)
        case WriteThrew => WriteThrew
  }

  /** The branch `set` builds where nothing existed: one `{}` per remaining
      intermediate segment, holding the value at the end. */
  function Nest(path: seq<string>, value: Json): (r: Json)
    ensures |path| > 0 ==> r.Obj? && r.fields.Keys == {path[0]}
    ensures TraverseObj(r, path) == Found(value)
    decreases |path|
  {
    if |path| == 0 then value else Obj(map[path[0] := Nest(path[1..], value)])
  }

  /** Below a freshly created `{}` every segment is free: the call succeeds,
      keeps the requested names, merges nothing and builds exactly the
      nested branch. So a throw can only happen before the first container
      is created. */
  lemma {:induction false} FreshNeverFails(path: seq<string>, value: Json, policy: Policy)
    requires |path| > 0
    ensures Set(Obj(map[]), path, value, policy) == Done(Nest(path, value), path, false)
    decreases |path|
  {
    var m: map<string, Json> := map[];
    var key := path[0];
    assert Candidate(key, 0) == key;
    if |path| == 1 {
      assert FinalSlot(m, key, value, policy, 0) == Slot(0, false);
      assert path[1..] == [];
    } else {
      assert IntermediateSlot(m, key, 0) == 0;
      FreshNeverFails(path[1..], value, policy);
      assert [key] + path[1..] == path;
    }
  }

  /** The returned path leads back to the stored value when no merge
      happened. */
  lemma {:induction false} SetThenGet(node: Json, path: seq<string>, value: Json, policy: Policy)
    requires |path| > 0
    requires Set(node, path, value, policy).Done?
    requires !Set(node, path, value, policy).merged
    ensures Get(Set(node, path, value, policy).doc, Set(node, path, value, policy).path) == Found(value)
    decreases |path|
  {
    var r := Set(node, path, value, policy);
    var m := node.fields;
    var key := path[0];
    if |path| == 1 {
      var name := r.path[0];
      assert r.doc == Obj(m[name := value]);
      assert r.path[1..] == [];
      assert TraverseObj(r.doc, r.path) == TraverseObj(value, []);
    } else {
      var name := Candidate(key, IntermediateSlot(m, key, 0));
      var child := if name in m then m[name] else Obj(map[]);
      SetThenGet(child, path[1..], value, policy);
      var sub := Set(child, path[1..], value, policy);
      assert r.doc == Obj(m[name := sub.doc]);
      assert r.path[0] == name && r.path[1..] == sub.path;
      assert TraverseObj(r.doc, r.path) == TraverseObj(sub.doc, sub.path);
    }
  }

  /** A merge leaves the document exactly as it was, and the returned path
      leads to the existing value the policy accepted. */
  lemma {:induction false} MergeLeavesDocument(node: Json, path: seq<string>, value: Json, policy: Policy)
    requires |path| > 0
    requires Set(node, path, value, policy).Done?
    requires Set(node, path, value, policy).merged
    ensures Set(node, path, value, policy).doc == node
    ensures TraverseObj(node, Set(node, path, value, policy).path).Found?
    ensures Accepts(policy, TraverseObj(node, Set(node, path, value, policy).path).value, value)
    decreases |path|
  {
    var r := Set(node, path, value, policy);
    var m := node.fields;
    var key := path[0];
    if |path| > 1 {
      var name := Candidate(key, IntermediateSlot(m, key, 0));
      if name !in m {
        FreshNeverFails(path[1..], value, policy);
      } else {
        MergeLeavesDocument(m[name], path[1..], value, policy);
        assert m[name := m[name]] == m;
        assert r.path[0] == name && r.path[1..] == Set(m[name], path[1..], value, policy).path;
      }
    }
  }

  /** `set` never overwrites or removes an own property: it only adds keys,
      so every value of the old document is still reachable, extended. */
  lemma {:induction false} SetOnlyAdds(node: Json, path: seq<string>, value: Json, policy: Policy)
    requires |path| > 0
    requires Set(node, path, value, policy).Done?
    ensures Extends(node, Set(node, path, value, policy).doc)
    decreases |path|
  {
    var m := node.fields;
    var key := path[0];
    if |path| > 1 {
      var name := Candidate(key, IntermediateSlot(m, key, 0));
      var child := if name in m then m[name] else Obj(map[]);
      SetOnlyAdds(child, path[1..], value, policy);
    }
  }

  /** Whatever a lookup found before an extension it still finds, extended;
      a scalar or `null` it found is found unchanged. */
  lemma {:induction false} ExtendsKeepsLookups(a: Json, b: Json, q: seq<string>)
    requires Extends(a, b)
    requires TraverseObj(a, q).Found?
    ensures TraverseObj(b, q).Found?
    ensures Extends(TraverseObj(a, q).value, TraverseObj(b, q).value)
    ensures !TraverseObj(a, q).value.Obj? ==> TraverseObj(b, q) == TraverseObj(a, q)
    decreases |q|
  {
    if a == b {
      return;
    }
    if |q| == 0 {
      if !a.Obj? {
        ScalarExtendsOnlyToItself(a, b);
      }
    } else {
      ExtendsKeepsLookups(a.fields[q[0]], b.fields[q[0]], q[1..]);
    }
  }

  /** Every lookup that succeeded before a successful `set` still succeeds
      afterwards, and finds the very same scalar where it found one. */
  lemma SetKeepsLookups(node: Json, path: seq<string>, value: Json, policy: Policy, q: seq<string>)
    requires |path| > 0
    requires Set(node, path, value, policy).Done?
    requires TraverseObj(node, q).Found?
    ensures TraverseObj(Set(node, path, value, policy).doc, q).Found?
    ensures !TraverseObj(node, q).value.Obj? ==>
      TraverseObj(Set(node, path, value, policy).doc, q) == TraverseObj(node, q)
  {
    SetOnlyAdds(node, path, value, policy);
    ExtendsKeepsLookups(node, Set(node, path, value, policy).doc, q);
  }

  /** Every resolved segment is one of the candidates of the requested one. */
  lemma {:induction false} SetRenamesWithinCandidates(node: Json, path: seq<string>, value: Json, policy: Policy)
    requires |path| > 0
    requires Set(node, path, value, policy).Done?
    ensures forall i :: 0 <= i < |path| ==>
      CandidateOf(Set(node, path, value, policy).path[i], path[i])
    decreases |path|
  {
    var r := Set(node, path, value, policy);
    var m := node.fields;
    var key := path[0];
    if |path| == 1 {
      assert r.path[0] == Candidate(key, FinalSlot(m, key, value, policy, 0).index);
      assert CandidateOf(r.path[0], path[0]);
    } else {
      var j0 := IntermediateSlot(m, key, 0);
      var name := Candidate(key, j0);
      var child := if name in m then m[name] else Obj(map[]);
      var rest := Set(child, path[1..], value, policy).path;
      SetRenamesWithinCandidates(child, path[1..], value, policy);
      assert forall i :: 0 <= i < |rest| ==> CandidateOf(rest[i], path[1..][i]);
      assert r.path == [name] + rest;
      forall i | 0 <= i < |path|
        ensures CandidateOf(r.path[i], path[i])
      {
        if i == 0 {
          assert r.path[0] == Candidate(path[0], j0);
        } else {
          assert r.path == [name] + rest;
          assert r.path[i] == rest[i - 1] && path[i] == path[1..][i - 1];
          var j: nat :| rest[i - 1] == Candidate(path[1..][i - 1], j);
          assert r.path[i] == Candidate(path[i], j);
        }
      }
    }
  }

  /** The own properties of the container a lookup reached, or none when
      the lookup missed (the container is then created by this very call). */
  function ParentFields(at: LookupResult): (m: map<string, Json>)
    ensures !at.Found? ==> m == map[]
  {
    if at.Found? && at.value.Obj? then at.value.fields else map[]
  }

  /** A lookup result `set` can meet above a segment: an old container, or
      a miss below a container this call creates. */
  predicate ContainerOrMissing(at: LookupResult)
  {
    at == NotFound || (at.Found? && at.value.Obj?)
  }

  /** The name the first of several segments resolves to. */
  function FirstName(node: Json, path: seq<string>): (name: string)
    requires |path| > 1 && node.Obj?
    ensures !LeafAt(node.fields, name)
  {
    Candidate(path[0], IntermediateSlot(node.fields, path[0], 0))
  }

  /** The container `set` descends into below the first segment: the old
      value under the resolved name, or a fresh `{}`. */
  function DescendInto(node: Json, path: seq<string>): (child: Json)
    requires |path| > 1 && node.Obj?
    ensures FirstName(node, path) !in node.fields ==> child == Obj(map[])
  {
    var name := FirstName(node, path);
    if name in node.fields then node.fields[name] else Obj(map[])
  }

  /** A call on two or more segments is the child call under the first
      resolved name, written back into the old container. `CallShape`,
      `StepOld` and `StepNew` are the one-level steps the inductions over
      depth below are built from. */
  lemma CallShape(node: Json, path: seq<string>, value: Json, policy: Policy)
    requires |path| > 1
    requires Set(node, path, value, policy).Done?
    ensures node.Obj?
    ensures var r := Set(node, path, value, policy);
      var sub := Set(DescendInto(node, path), path[1..], value, policy);
      && sub.Done?
      && r.path == [FirstName(node, path)] + sub.path
      && r.doc == Obj(node.fields[FirstName(node, path) := sub.doc])
      && r.merged == sub.merged
  {
  }

  /** Looking up a prefix of the resolved path in the old document meets the
      same old container as looking up the rest of it in the child. */
  lemma StepOld(node: Json, path: seq<string>, value: Json, policy: Policy, i: nat)
    requires 1 <= i < |path|
    requires Set(node, path, value, policy).Done?
    ensures var r := Set(node, path, value, policy);
      var child := DescendInto(node, path);
      var sub := Set(child, path[1..], value, policy);
      && sub.Done?
      && ParentFields(TraverseObj(node, r.path[..i])) == ParentFields(TraverseObj(child, sub.path[..i - 1]))
      && (ContainerOrMissing(TraverseObj(child, sub.path[..i - 1])) ==> ContainerOrMissing(TraverseObj(node, r.path[..i])))
  {
    CallShape(node, path, value, policy);
    var r := Set(node, path, value, policy);
    var name := FirstName(node, path);
    var child := DescendInto(node, path);
    var sub := Set(child, path[1..], value, policy);
    assert r.path[1..i] == sub.path[..i - 1];
    assert r.path[..i][0] == name;
    if name in node.fields {
      FirstStep(node, r.path, i);
    } else if i == 1 {
      assert sub.path[..0] == [];
    } else {
      FreshNeverFails(path[1..], value, policy);
      assert sub.path[..i - 1][0] == path[1];
    }
  }

  /** Looking up a prefix of the resolved path in the new document is looking
      up the rest of it in the child call's document. */
  lemma StepNew(node: Json, path: seq<string>, value: Json, policy: Policy, i: nat)
    requires 1 <= i < |path| - 1
    requires Set(node, path, value, policy).Done?
    ensures var r := Set(node, path, value, policy);
      var sub := Set(DescendInto(node, path), path[1..], value, policy);
      sub.Done? && TraverseObj(r.doc, r.path[..i + 1]) == TraverseObj(sub.doc, sub.path[..i])
  {
    CallShape(node, path, value, policy);
    var r := Set(node, path, value, policy);
    var sub := Set(DescendInto(node, path), path[1..], value, policy);
    FirstStep(r.doc, r.path, i + 1);
    assert r.path[1..i + 1] == sub.path[..i];
  }

  /** At every depth, the old value above the segment being resolved is a
      container, or missing because this very call creates it. */
  lemma {:induction false} ParentsAreContainers(node: Json, path: seq<string>, value: Json, policy: Policy, i: nat)
    requires i < |path|
    requires Set(node, path, value, policy).Done?
    ensures ContainerOrMissing(TraverseObj(node, Set(node, path, value, policy).path[..i]))
    decreases |path|
  {
    if i == 0 {
      assert Set(node, path, value, policy).path[..0] == [];
    } else {
      StepOld(node, path, value, policy, i);
      ParentsAreContainers(DescendInto(node, path), path[1..], value, policy, i - 1);
    }
  }

  /** At every depth, an intermediate segment is resolved by the
      intermediate search over the old container's keys, and an absent
      candidate is filled with the nested branch. This is the induction
      over depth; `IntermediateSegment`, `IntermediateKept` and
      `IntermediateCreated` are the statements to read. */
  lemma {:induction false} IntermediateResolved(node: Json, path: seq<string>, value: Json, policy: Policy, i: nat)
    requires i < |path| - 1
    requires Set(node, path, value, policy).Done?
    ensures var r := Set(node, path, value, policy);
      var pm := ParentFields(TraverseObj(node, r.path[..i]));
      && r.path[i] == Candidate(path[i], IntermediateSlot(pm, path[i], 0))
      && (r.path[i] !in pm ==>
            && r.path[i + 1..] == path[i + 1..]
            && TraverseObj(r.doc, r.path[..i + 1]) == Found(Nest(path[i + 1..], value)))
    decreases |path|
  {
    if i == 0 {
      IntermediateAtRoot(node, path, value, policy);
    } else {
      IntermediateStep(node, path, value, policy, i);
      IntermediateResolved(DescendInto(node, path), path[1..], value, policy, i - 1);
    }
  }

  /** The first of several segments resolves by the intermediate search over
      the root's keys; an absent candidate gets the nested branch. */
  lemma IntermediateAtRoot(node: Json, path: seq<string>, value: Json, policy: Policy)
    requires |path| > 1
    requires Set(node, path, value, policy).Done?
    ensures var r := Set(node, path, value, policy);
      var pm := ParentFields(TraverseObj(node, r.path[..0]));
      && r.path[0] == Candidate(path[0], IntermediateSlot(pm, path[0], 0))
      && (r.path[0] !in pm ==>
            && r.path[1..] == path[1..]
            && TraverseObj(r.doc, r.path[..1]) == Found(Nest(path[1..], value)))
  {
    var r := Set(node, path, value, policy);
    CallShape(node, path, value, policy);
    assert r.path[..0] == [];
    assert ParentFields(TraverseObj(node, [])) == node.fields;
    if FirstName(node, path) !in node.fields {
      FreshNeverFails(path[1..], value, policy);
      assert r.path[..1] == [r.path[0]];
    }
  }

  /** Segment `i` below the root resolves as segment `i - 1` of the child
      call does. */
  lemma IntermediateStep(node: Json, path: seq<string>, value: Json, policy: Policy, i: nat)
    requires 1 <= i < |path| - 1
    requires Set(node, path, value, policy).Done?
    ensures var r := Set(node, path, value, policy);
      var child := DescendInto(node, path);
      var sub := Set(child, path[1..], value, policy);
      && sub.Done?
      && path[1..][i - 1] == path[i] && path[1..][i..] == path[i + 1..]
      && sub.path[i - 1] == r.path[i] && sub.path[i..] == r.path[i + 1..]
      && ParentFields(TraverseObj(node, r.path[..i])) == ParentFields(TraverseObj(child, sub.path[..i - 1]))
      && TraverseObj(r.doc, r.path[..i + 1]) == TraverseObj(sub.doc, sub.path[..i])
  {
    CallShape(node, path, value, policy);
    StepOld(node, path, value, policy, i);
    StepNew(node, path, value, policy, i);
  }

  /** A one-segment call resolves by the final search over the root's keys. */
  lemma FinalAtRoot(node: Json, path: seq<string>, value: Json, policy: Policy)
    requires |path| == 1
    requires Set(node, path, value, policy).Done?
    ensures var r := Set(node, path, value, policy);
      var s := FinalSlot(ParentFields(TraverseObj(node, r.path[..0])), path[0], value, policy, 0);
      r.path[0] == Candidate(path[0], s.index) && r.merged == s.merged
  {
    var r := Set(node, path, value, policy);
    assert r.path[..0] == [];
    assert ParentFields(TraverseObj(node, [])) == node.fields;
  }

  /** The last segment's resolution one level down is the same as in the
      child call. */
  lemma FinalStep(node: Json, path: seq<string>, value: Json, policy: Policy)
    requires |path| > 1
    requires Set(node, path, value, policy).Done?
    ensures var r := Set(node, path, value, policy);
      var n := |path| - 1;
      var child := DescendInto(node, path);
      var sub := Set(child, path[1..], value, policy);
      && sub.Done?
      && path[1..][n - 1] == path[n]
      && sub.path[n - 1] == r.path[n]
      && sub.merged == r.merged
      && ParentFields(TraverseObj(node, r.path[..n])) == ParentFields(TraverseObj(child, sub.path[..n - 1]))
  {
    CallShape(node, path, value, policy);
    StepOld(node, path, value, policy, |path| - 1);
  }

  /** At every depth, the last segment is resolved by the final search over
      the old parent's keys. This is the induction over depth;
      `LastSegment` is the statement to read. */
  lemma {:induction false} FinalResolved(node: Json, path: seq<string>, value: Json, policy: Policy)
    requires |path| > 0
    requires Set(node, path, value, policy).Done?
    ensures var r := Set(node, path, value, policy);
      var n := |path| - 1;
      var s := FinalSlot(ParentFields(TraverseObj(node, r.path[..n])), path[n], value, policy, 0);
      r.path[n] == Candidate(path[n], s.index) && r.merged == s.merged
    decreases |path|
  {
    var r := Set(node, path, value, policy);
    var n := |path| - 1;
    if n == 0 {
      FinalAtRoot(node, path, value, policy);
    } else {
      FinalStep(node, path, value, policy);
      FinalResolved(DescendInto(node, path), path[1..], value, policy);
    }
  }

  /** Intermediate segment `i`, at any depth: the name used is the first
      candidate that is not a leaf node of the old container, and the
      returned path leads through it. */
  lemma IntermediateSegment(node: Json, path: seq<string>, value: Json, policy: Policy, i: nat)
    requires i < |path| - 1
    requires Set(node, path, value, policy).Done?
    ensures var r := Set(node, path, value, policy);
      var pm := ParentFields(TraverseObj(node, r.path[..i]));
      var j := IntermediateSlot(pm, path[i], 0);
      && r.path[i] == Candidate(path[i], j)
      && !LeafAt(pm, r.path[i])
      && (forall k :: 0 <= k < j ==> LeafAt(pm, Candidate(path[i], k)))
      && TraverseObj(r.doc, r.path[..i + 1]).Found?
  {
    IntermediateResolved(node, path, value, policy, i);
    IntermediateKept(node, path, value, policy, i);
    IntermediateCreated(node, path, value, policy, i);
  }

  /** An existing subtree under intermediate segment `i` is kept and only
      extended. */
  lemma IntermediateKept(node: Json, path: seq<string>, value: Json, policy: Policy, i: nat)
    requires i < |path| - 1
    requires Set(node, path, value, policy).Done?
    ensures var r := Set(node, path, value, policy);
      var pm := ParentFields(TraverseObj(node, r.path[..i]));
      var after := TraverseObj(r.doc, r.path[..i + 1]);
      r.path[i] in pm ==> after.Found? && Extends(pm[r.path[i]], after.value)
  {
    var r := Set(node, path, value, policy);
    var at := TraverseObj(node, r.path[..i]);
    if r.path[i] in ParentFields(at) {
      ParentsAreContainers(node, path, value, policy, i);
      SetOnlyAdds(node, path, value, policy);
      assert r.path[..i + 1] == r.path[..i] + [r.path[i]];
      TraverseAppend(node, r.path[..i], [r.path[i]]);
      ExtendsKeepsLookups(node, r.doc, r.path[..i + 1]);
    }
  }

  /** An absent intermediate segment `i` is created as `{}` and filled with
      the rest of the requested path, under the requested names. */
  lemma IntermediateCreated(node: Json, path: seq<string>, value: Json, policy: Policy, i: nat)
    requires i < |path| - 1
    requires Set(node, path, value, policy).Done?
    ensures var r := Set(node, path, value, policy);
      var pm := ParentFields(TraverseObj(node, r.path[..i]));
      r.path[i] !in pm ==>
        && r.path[i + 1..] == path[i + 1..]
        && TraverseObj(r.doc, r.path[..i + 1]) == Found(Nest(path[i + 1..], value))
  {
    IntermediateResolved(node, path, value, policy, i);
  }

  /** Last segment, under a parent at any depth: the policy is consulted on
      each occupied candidate in order; the first it merges into is returned
      with the document untouched, otherwise the value lands under the first
      candidate that is not an own property of the old parent. */
  lemma LastSegment(node: Json, path: seq<string>, value: Json, policy: Policy)
    requires |path| > 0
    requires Set(node, path, value, policy).Done?
    ensures var r := Set(node, path, value, policy);
      var n := |path| - 1;
      var pm := ParentFields(TraverseObj(node, r.path[..n]));
      var s := FinalSlot(pm, path[n], value, policy, 0);
      && r.path[n] == Candidate(path[n], s.index)
      && r.merged == s.merged
      && (forall k :: 0 <= k < s.index ==> Declined(pm, path[n], k, policy, value))
      && (r.merged ==> r.doc == node && r.path[n] in pm && Accepts(policy, pm[r.path[n]], value))
      && (!r.merged ==> r.path[n] !in pm && TraverseObj(r.doc, r.path) == Found(value))
  {
    var r := Set(node, path, value, policy);
    FinalResolved(node, path, value, policy);
    if r.merged {
      MergeLeavesDocument(node, path, value, policy);
    } else {
      SetThenGet(node, path, value, policy);
    }
  }

  /** Every path that neither leads to nor passes through the stored value
      looks up exactly as before: `set` touches nothing off its path. */
  lemma {:induction false} KeepsOffPath(node: Json, path: seq<string>, value: Json, policy: Policy, q: seq<string>)
    requires |path| > 0
    requires Set(node, path, value, policy).Done?
    requires !IsPrefix(q, Set(node, path, value, policy).path)
    requires !IsPrefix(Set(node, path, value, policy).path, q)
    ensures TraverseObj(Set(node, path, value, policy).doc, q) == TraverseObj(node, q)
    decreases |path|
  {
    var r := Set(node, path, value, policy);
    var m := node.fields;
    assert IsPrefix([], r.path);
    if r.merged {
      MergeLeavesDocument(node, path, value, policy);
    } else if q[0] != r.path[0] {
      assert r.doc.fields == m[r.path[0] := r.doc.fields[r.path[0]]];
    } else {
      PrefixTail(r.path, q);
      PrefixTail(q, r.path);
      assert IsPrefix([], q[1..]);
      CallShape(node, path, value, policy);
      var child := DescendInto(node, path);
      var sub := Set(child, path[1..], value, policy);
      assert r.path[1..] == sub.path;
      assert IsPrefix([], sub.path);
      KeepsOffPath(child, path[1..], value, policy, q[1..]);
    }
  }

  /** Segment `k` of `q` is the name the walk of `set` resolves there: the
      first non-leaf candidate of `path[k]` in the old container reached by
      `q[..k]` (no keys when that lookup misses). */
  ghost predicate WalkStep(node: Json, path: seq<string>, q: seq<string>, k: nat)
    requires k < |q| && k < |path|
  {
    q[k] == Candidate(path[k], IntermediateSlot(ParentFields(TraverseObj(node, q[..k])), path[k], 0))
  }

  /** `q` is a prefix of the walk `set` takes for `path`, strictly above the
      last segment. */
  ghost predicate OnWalk(node: Json, path: seq<string>, q: seq<string>)
  {
    |q| < |path| && forall k :: 0 <= k < |q| ==> WalkStep(node, path, q, k)
  }

  /** The walk reaches an existing number, string or boolean above the last
      segment. */
  ghost predicate ScalarOnWalk(node: Json, path: seq<string>, q: seq<string>)
  {
    && 0 < |q|
    && OnWalk(node, path, q)
    && TraverseObj(node, q).Found?
    && !TraverseObj(node, q).value.Obj? && !TraverseObj(node, q).value.Null?
  }

  /** The walk's first step is the first resolved name. */
  lemma WalkHead(node: Json, path: seq<string>, q: seq<string>)
    requires node.Obj? && |path| > 1 && 0 < |q|
    ensures WalkStep(node, path, q, 0) <==> q[0] == FirstName(node, path)
  {
    assert q[..0] == [];
    assert ParentFields(TraverseObj(node, [])) == node.fields;
  }

  /** Below an existing first name, step `k + 1` of the walk from `node` is
      step `k` of the walk from the child. */
  lemma WalkShift(node: Json, path: seq<string>, q': seq<string>, k: nat)
    requires node.Obj? && |path| > 1 && FirstName(node, path) in node.fields
    requires k < |q'| && k + 1 < |path|
    ensures var q := [FirstName(node, path)] + q';
      WalkStep(node, path, q, k + 1) <==> WalkStep(node.fields[FirstName(node, path)], path[1..], q', k)
  {
    var q := [FirstName(node, path)] + q';
    FirstStep(node, q, k + 1);
    assert q[1..k + 1] == q'[..k];
    assert q[k + 1] == q'[k] && path[k + 1] == path[1..][k];
  }

  /** Below an existing first name, the walk from `node` is the first name
      followed by the walk from the child, and looks up the same values. */
  lemma WalkCons(node: Json, path: seq<string>, q': seq<string>)
    requires node.Obj? && |path| > 1 && FirstName(node, path) in node.fields
    ensures var name := FirstName(node, path);
      && (OnWalk(node, path, [name] + q') <==> OnWalk(node.fields[name], path[1..], q'))
      && TraverseObj(node, [name] + q') == TraverseObj(node.fields[name], q')
  {
    var name := FirstName(node, path);
    var child := node.fields[name];
    var q := [name] + q';
    FirstStep(node, q, |q|);
    assert q[..|q|] == q && q[1..|q|] == q';
    WalkHead(node, path, q);
    if OnWalk(node, path, q) {
      forall k | 0 <= k < |q'|
        ensures WalkStep(child, path[1..], q', k)
      {
        assert WalkStep(node, path, q, k + 1);
        WalkShift(node, path, q', k);
      }
    }
    if OnWalk(child, path[1..], q') {
      forall k | 0 <= k < |q|
        ensures WalkStep(node, path, q, k)
      {
        if k > 0 {
          assert WalkStep(child, path[1..], q', k - 1);
          WalkShift(node, path, q', k - 1);
        }
      }
    }
  }

  /** Exactly when `set` throws: the root is not an object, or the walk
      reaches an existing number, string or boolean above the last segment
      and the next property write onto it fails. Otherwise it succeeds. */
  lemma {:induction false} SetThrowsExactly(node: Json, path: seq<string>, value: Json, policy: Policy)
    requires |path| > 0
    ensures Set(node, path, value, policy).WriteThrew? <==>
      !node.Obj? || exists q :: ScalarOnWalk(node, path, q)
    decreases |path|
  {
    if node.Obj? && |path| > 1 {
      var m := node.fields;
      var name := FirstName(node, path);
      if name !in m {
        FreshNeverFails(path[1..], value, policy);
        forall q | 0 < |q| && OnWalk(node, path, q)
          ensures TraverseObj(node, q) == NotFound
        {
          WalkHead(node, path, q);
        }
      } else if !m[name].Obj? {
        WalkCons(node, path, []);
        assert [name] + [] == [name];
        assert ScalarOnWalk(node, path, [name]);
      } else {
        var child := m[name];
        SetThrowsExactly(child, path[1..], value, policy);
        if exists q' :: ScalarOnWalk(child, path[1..], q') {
          var q' :| ScalarOnWalk(child, path[1..], q');
          WalkCons(node, path, q');
          assert ScalarOnWalk(node, path, [name] + q');
        }
        if exists q :: ScalarOnWalk(node, path, q) {
          var q :| ScalarOnWalk(node, path, q);
          WalkHead(node, path, q);
          assert q == [name] + q[1..];
          WalkCons(node, path, q[1..]);
          assert ScalarOnWalk(child, path[1..], q[1..]);
        }
      }
    }
  }

  /** No value strictly above depth `n` below `node` is a number, string or
      boolean: whatever exists there is an object or `null`. */
  ghost predicate NoScalarAbove(node: Json, n: nat)
  {
    forall p: seq<string> :: 0 < |p| < n && TraverseObj(node, p).Found? ==>
      TraverseObj(node, p).value.Obj? || TraverseObj(node, p).value.Null?
  }

  /** Corollary of `SetThrowsExactly` for documents that hold no number,
      string or boolean above the depth of the last segment at all: on an
      object root `set` then always succeeds. */
  lemma SetSucceeds(node: Json, path: seq<string>, value: Json, policy: Policy)
    requires |path| > 0
    requires node.Obj?
    requires NoScalarAbove(node, |path|)
    ensures Set(node, path, value, policy).Done?
  {
    SetThrowsExactly(node, path, value, policy);
  }

  /** Some existing number, string or boolean strictly above the last
      segment, reached along candidate names of the requested segments. */
  ghost predicate ScalarOnCandidates(node: Json, path: seq<string>, q: seq<string>)
  {
    && 0 < |q| < |path|
    && (forall k :: 0 <= k < |q| ==> CandidateOf(q[k], path[k]))
    && TraverseObj(node, q).Found?
    && !TraverseObj(node, q).value.Obj? && !TraverseObj(node, q).value.Null?
  }

  /** Corollary of `SetThrowsExactly`: a throw is always caused by a scalar
      under names the rename search tries, never by one elsewhere. */
  lemma ThrowsOnlyAtScalar(node: Json, path: seq<string>, value: Json, policy: Policy)
    requires |path| > 0
    requires Set(node, path, value, policy).WriteThrew?
    ensures !node.Obj? || exists q :: ScalarOnCandidates(node, path, q)
  {
    SetThrowsExactly(node, path, value, policy);
    if node.Obj? {
      var q :| ScalarOnWalk(node, path, q);
      forall k | 0 <= k < |q|
        ensures CandidateOf(q[k], path[k])
      {
        assert WalkStep(node, path, q, k);
        var j := IntermediateSlot(ParentFields(TraverseObj(node, q[..k])), path[k], 0);
        assert q[k] == Candidate(path[k], j);
      }
      assert ScalarOnCandidates(node, path, q);
    }
  }

  /** A container whose children are all scalars is a leaf node, so it is
      renamed around even below the root; the renamed branch is created and
      the call succeeds. */
  lemma RenamesAroundLeafContainer()
    ensures Set(Obj(map["a" := Obj(map["x" := Num(1)])]), ["a", "x", "z"], Num(2), NoPolicy)
         == Done(Obj(map["a" := Obj(map["x" := Num(1)]),
                         "a1" := Obj(map["x" := Obj(map["z" := Num(2)])])]), ["a1", "x", "z"], false)
  {
    var inner := Obj(map["x" := Num(1)]);
    var m := map["a" := inner];
    assert LeafAt(m, "a");
    assert Candidate("a", 1) == "a1";
    assert !LeafAt(m, "a1");
    assert IntermediateSlot(m, "a", 0) == 1;
    FreshNeverFails(["x", "z"], Num(2), NoPolicy);
    assert ["a", "x", "z"][1..] == ["x", "z"];
  }

  /** An existing scalar is not a leaf node, so it is not renamed around:
      the walk descends into it and the next write onto it throws. */
  lemma DescendsIntoScalar(m: map<string, Json>, path: seq<string>, value: Json, policy: Policy)
    requires |path| > 1
    requires path[0] in m
    requires !m[path[0]].Obj? && !m[path[0]].Null?
    ensures Set(Obj(m), path, value, policy) == WriteThrew
  {
  }

  /** `null` is a leaf node, so an intermediate segment holding `null` is
      renamed around and the `null` is kept. */
  lemma RenamesAroundNull(m: map<string, Json>, path: seq<string>, value: Json, policy: Policy)
    requires |path| > 1
    requires path[0] in m && m[path[0]] == Null
    ensures Set(Obj(m), path, value, policy).Done? ==>
      && Set(Obj(m), path, value, policy).path[0] != path[0]
      && Set(Obj(m), path, value, policy).doc.fields[path[0]] == Null
  {
  }

  /** Setting `["a"]` twice without a policy keeps the first value under `a`
      and stores the second under `a1`. */
  lemma CollisionRenames()
    ensures var first := Set(Obj(map[]), ["a"], Num(1), NoPolicy);
      && first == Done(Obj(map["a" := Num(1)]), ["a"], false)
      && Set(first.doc, ["a"], Num(2), NoPolicy)
         == Done(Obj(map["a" := Num(1), "a1" := Num(2)]), ["a1"], false)
  {
    assert Candidate("a", 0) == "a";
    assert Candidate("a", 1) == "a1";
    assert FinalSlot(map[], "a", Num(1), NoPolicy, 0) == Slot(0, false);
    var m := map["a" := Num(1)];
    assert FinalSlot(m, "a", Num(2), NoPolicy, 1) == Slot(1, false);
    assert FinalSlot(m, "a", Num(2), NoPolicy, 0) == Slot(1, false);
  }
}

=== FILE: json.dfy ===
/** The in-memory document the path engine works on: the value `JSON.parse`
    produces. Arrays are folded into objects keyed by their index strings,
    numbers are integer payloads, and strings carry no own properties. */
module JsonTree {

  datatype Json =
    | Null
    | Bool(b: bool)
    | Num(n: int)
    | Str(s: string)
    | Obj(fields: map<string, Json>)

  /** JavaScript truthiness of a JSON value: `null`, `false`, `0` and `""`
      are falsy, every object (even `{}`) is truthy. */
  predicate Truthy(j: Json)
  {
    match j
    case Null => false
    case Bool(b) => b
    case Num(n) => n != 0
    case Str(s) => s != ""
    case Obj(_) => true
  }

  /** `typeof j === 'object' && j !== null` */
  predicate IsObject(j: Json)
  {
    j.Obj?
  }

  /** The leaf-node classification of index.js: `null`, or an object none of
      whose own properties holds a non-null object. Every other value
      (including a number, a string or a boolean) is not a leaf. */
  predicate IsLeaf(j: Json)
  {
    j.Null? || (j.Obj? && forall k :: k in j.fields ==> !IsObject(j.fields[k]))
  }

  /** `isLeafNode(m[k])` where an absent key reads as `undefined`, which is
      not a leaf. */
  predicate LeafAt(m: map<string, Json>, k: string)
  {
    k in m && IsLeaf(m[k])
  }

  /** `a` grows into `b` by adding keys only: every own property of every
      object in `a` is still there in `b`, and every non-object is kept as is. */
  ghost predicate Extends(a: Json, b: Json)
  {
    a == b
    || (a.Obj? && b.Obj?
        && forall k :: k in a.fields ==> k in b.fields && Extends(a.fields[k], b.fields[k]))
  }

  /** A scalar (or `null`) can only be extended to itself. */
  lemma ScalarExtendsOnlyToItself(a: Json, b: Json)
    requires !a.Obj?
    requires Extends(a, b)
    ensures b == a
  {
  }
}

=== FILE: leaf.dfy ===
/** `isLeafNode`: a `for ... in` scan over the own properties of a value. */
module LeafNode {
  import opened JsonTree

  /** Scans the own properties of `j` in an unspecified order and answers
      false at the first one holding a non-null object. A non-object answers
      `undefined`, i.e. false; `null` has no properties and answers true. */
  method IsLeafNode(j: Json) returns (r: bool)
    ensures r <==> IsLeaf(j)
    ensures !j.Obj? ==> (r <==> j.Null?)
  {
    if !j.Null? && !j.Obj? {
      return false;
    }
    var m: map<string, Json> := if j.Obj? then j.fields else map[];
    var pending := m.Keys;
    while pending != {}
      invariant pending <= m.Keys
      invariant forall k :: k in m.Keys - pending ==> !IsObject(m[k])
      decreases pending
    {
      var k :| k in pending;
      if IsObject(m[k]) {
        return false;
      }
      pending := pending - {k};
    }
    return true;
  }
}

=== FILE: lookup.dfy ===
/** `traverseObj` and `JSONFile.get`: follow a path of own properties. */
module Lookup {
  import opened JsonTree

  /** Result of a lookup: the value reached, `undefined`, or the TypeError
      `null.hasOwnProperty(...)` throws. */
  datatype LookupResult = Found(value: Json) | NotFound | Threw

  /** Follows `path` from `node` one own property at a time, returning
      `NotFound` at the first segment that is not an own property (a scalar
      has none) and throwing when a segment is asked of `null`. */
  function TraverseObj(node: Json, path: seq<string>): (r: LookupResult)
    decreases |path|
  {
    if |path| == 0 then Found(node)
    else
      match node
      case Null => Threw
      case Obj(m) => if path[0] in m then TraverseObj(m[path[0]], path[1..]) else NotFound
      case _ => NotFound
  }

  /** `JSONFile.get`: the path must be non-empty. */
  function Get(doc: Json, path: seq<string>): (r: LookupResult)
    requires |path| > 0
    ensures r.Found? ==> doc.Obj? && path[0] in doc.fields
    ensures doc.Null? ==> r.Threw?
    ensures !doc.Obj? && !doc.Null? ==> r.NotFound?
  {
    TraverseObj(doc, path)
  }

  /** Looking up `p + q` is looking up `p`, then `q` from the value found;
      any miss or throw along `p` is the final answer. */
  lemma {:induction false} TraverseAppend(node: Json, p: seq<string>, q: seq<string>)
    ensures TraverseObj(node, p + q) ==
      match TraverseObj(node, p)
      case Found(v) => TraverseObj(v, q)
      case other => other
    decreases |p|
  {
    if |p| == 0 {
      assert p + q == q;
    } else {
      assert (p + q)[0] == p[0];
      assert (p + q)[1..] == p[1..] + q;
      if node.Obj? && p[0] in node.fields {
        TraverseAppend(node.fields[p[0]], p[1..], q);
      }
    }
  }

  /** A lookup stops at the first missing key: if the prefix `path[..i]`
      reaches an object lacking `path[i]`, the whole lookup is `NotFound`. */
  lemma StopsAtFirstMissing(node: Json, path: seq<string>, i: nat)
    requires i < |path|
    requires TraverseObj(node, path[..i]).Found?
    requires TraverseObj(node, path[..i]).value.Obj?
    requires path[i] !in TraverseObj(node, path[..i]).value.fields
    ensures TraverseObj(node, path) == NotFound
  {
    assert path == path[..i] + path[i..];
    TraverseAppend(node, path[..i], path[i..]);
  }

  /** A scalar reached before the end of the path also ends the lookup with
      `NotFound`, whereas `null` throws. */
  lemma ScalarMidPath(node: Json, path: seq<string>, i: nat)
    requires i < |path|
    requires TraverseObj(node, path[..i]).Found?
    requires !TraverseObj(node, path[..i]).value.Obj?
    ensures TraverseObj(node, path) ==
      if TraverseObj(node, path[..i]).value.Null? then Threw else NotFound
  {
    assert path == path[..i] + path[i..];
    TraverseAppend(node, path[..i], path[i..]);
  }

  /** `Found` is reached exactly through objects holding each segment. */
  lemma {:induction false} FoundStepsThroughObjects(node: Json, path: seq<string>, i: nat)
    requires i < |path|
    requires TraverseObj(node, path).Found?
    ensures TraverseObj(node, path[..i]).Found?
    ensures TraverseObj(node, path[..i]).value.Obj?
    ensures path[i] in TraverseObj(node, path[..i]).value.fields
    ensures TraverseObj(node, path[..i + 1]) == Found(TraverseObj(node, path[..i]).value.fields[path[i]])
  {
    assert path == path[..i] + path[i..];
    TraverseAppend(node, path[..i], path[i..]);
    assert path[..i + 1] == path[..i] + [path[i]];
    TraverseAppend(node, path[..i], [path[i]]);
  }

  /** The only way a lookup throws is by reaching `null` strictly before the
      end of the path. */
  lemma {:induction false} ThrowsOnlyAtNull(node: Json, path: seq<string>)
    ensures TraverseObj(node, path).Threw? <==>
      exists i :: 0 <= i < |path| && TraverseObj(node, path[..i]) == Found(Null)
    decreases |path|
  {
    if |path| > 0 {
      assert path[..0] == [];
      if node.Obj? && path[0] in node.fields {
        var child := node.fields[path[0]];
        ThrowsOnlyAtNull(child, path[1..]);
        forall i | 1 <= i <= |path|
          ensures TraverseObj(node, path[..i]) == TraverseObj(child, path[1..][..i - 1])
        {
          assert path[..i][0] == path[0];
          assert path[..i][1..] == path[1..][..i - 1];
        }
        if TraverseObj(node, path).Threw? {
          var k :| 0 <= k < |path| - 1 && TraverseObj(child, path[1..][..k]) == Found(Null);
          assert TraverseObj(node, path[..k + 1]) == Found(Null);
        }
      } else if !node.Null? {
        forall i | 0 <= i < |path|
          ensures TraverseObj(node, path[..i]) != Found(Null)
        {
          if i > 0 {
            assert path[..i][0] == path[0];
          }
        }
      }
    }
  }

  /** Once the first segment is an own property of an object, looking up a
      prefix of the path is looking up the rest of that prefix in the child. */
  lemma FirstStep(node: Json, path: seq<string>, i: nat)
    requires 1 <= i <= |path|
    requires node.Obj? && path[0] in node.fields
    ensures TraverseObj(node, path[..i]) == TraverseObj(node.fields[path[0]], path[1..i])
  {
    assert path[..i][0] == path[0];
    assert path[..i][1..] == path[1..i];
  }

  /** `p` is a prefix of `q`. */
  ghost predicate IsPrefix(p: seq<string>, q: seq<string>)
  {
    |p| <= |q| && q[..|p|] == p
  }

  /** Dropping a shared first segment keeps the prefix relation. */
  lemma PrefixTail(p: seq<string>, q: seq<string>)
    requires |p| > 0 && |q| > 0 && p[0] == q[0]
    ensures IsPrefix(p, q) <==> IsPrefix(p[1..], q[1..])
  {
    if IsPrefix(p[1..], q[1..]) {
      assert q[..|p|] == [q[0]] + q[1..][..|p| - 1];
    }
    if IsPrefix(p, q) {
      assert q[1..][..|p| - 1] == q[..|p|][1..];
    }
  }
}

=== FILE: removal.dfy ===
/** `JSONFile.delete`: remove the property at a path, then prune the
    ancestors the removal left empty. */
module Removal {
  import opened JsonTree
  import opened Lookup

  /** `Removed` carries the document after the call and the value returned;
      `Absent` is the `undefined` returned, without any change, when the last
      segment is not an own property of its parent; `DeleteThrew` is the
      TypeError of calling `hasOwnProperty` on `null` or on the `undefined`
      a missing intermediate segment produces. */
  datatype DeleteResult = Removed(doc: Json, value: Json) | Absent | DeleteThrew

  /** Deletes the last segment of `path` below `node`. Coming back up, a
      container left with no own property is deleted from its parent in
      turn, up to but not including `node`. A falsy removed value is
      replaced by the first container pruned after it. */
  function Delete(node: Json, path: seq<string>): (r: DeleteResult)
    requires |path| > 0
    ensures r.Removed? ==> node.Obj? && r.doc.Obj?
    ensures r.Removed? ==> r.doc.fields.Keys <= node.fields.Keys
    decreases |path|
  {
    var key := path[0];
    if node.Null? then DeleteThrew
    else if !node.Obj? then (if |path| == 1 then Absent else DeleteThrew)
    else
      var m := node.fields;
      if |path| == 1 then
        if key in m then Removed(Obj(m - {key}), m[key]) else Absent
      else if key !in m then DeleteThrew
      else
        match Delete(m[key], path[1..])
        case Removed(child, v) =>
          if child == Obj(map[]) then Removed(Obj(m - {key}), if Truthy(v) then v else child)
          else Removed(Obj(m[key := child]), v)
        case Absent => Absent
        case DeleteThrew => DeleteThrew
  }

  /** The container at `p` has at least two own properties, so removing one
      of them does not leave it empty. */
  ghost predicate Branches(node: Json, p: seq<string>)
  {
    var at := TraverseObj(node, p);
    at.Found? && at.value.Obj? && |at.value.fields| >= 2
  }

  /** The three outcomes, read off a lookup: a value is removed exactly when
      the whole path is found; `undefined` comes back exactly when the parent
      is found and is not `null` but lacks the last segment; otherwise the
      call throws. */
  lemma {:induction false} Outcomes(node: Json, path: seq<string>)
    requires |path| > 0
    ensures Delete(node, path).Removed? <==> TraverseObj(node, path).Found?
    ensures Delete(node, path).Absent? <==>
      && TraverseObj(node, path) == NotFound
      && TraverseObj(node, path[..|path| - 1]).Found?
      && !TraverseObj(node, path[..|path| - 1]).value.Null?
    decreases |path|
  {
    var n := |path|;
    var key := path[0];
    if n == 1 {
      assert path[..0] == [];
    } else if node.Obj? && key in node.fields {
      Outcomes(node.fields[key], path[1..]);
      FirstStep(node, path, n - 1);
      assert path[1..][..|path[1..]| - 1] == path[1..n - 1];
    } else {
      assert path[..n - 1][0] == key;
    }
  }

  /** After a removal the path no longer leads anywhere. */
  lemma {:induction false} RemovesTarget(node: Json, path: seq<string>)
    requires |path| > 0
    requires Delete(node, path).Removed?
    ensures TraverseObj(Delete(node, path).doc, path) == NotFound
    decreases |path|
  {
    if |path| > 1 {
      var child := node.fields[path[0]];
      RemovesTarget(child, path[1..]);
    }
  }

  /** Every path that neither leads to nor passes through the removed
      property looks up exactly as before. */
  lemma {:induction false} KeepsOffPath(node: Json, path: seq<string>, q: seq<string>)
    requires |path| > 0
    requires Delete(node, path).Removed?
    requires !IsPrefix(q, path) && !IsPrefix(path, q)
    ensures TraverseObj(Delete(node, path).doc, q) == TraverseObj(node, q)
    decreases |path|
  {
    var d := Delete(node, path).doc;
    var m := node.fields;
    var key := path[0];
    assert IsPrefix([], path);
    if q[0] != key {
      assert d.fields.Keys == m.Keys - {key} || d.fields == m[key := d.fields[key]];
    } else {
      PrefixTail(path, q);
      PrefixTail(q, path);
      assert IsPrefix([], q[1..]) && IsPrefix([], path[1..]);
      KeepsOffPath(m[key], path[1..], q[1..]);
    }
  }

  /** The part of the path left empty: a node ends up empty exactly when no
      container from it down to the target's parent had a second property. */
  lemma {:induction false} EmptiedExactly(node: Json, path: seq<string>)
    requires |path| > 0
    requires Delete(node, path).Removed?
    ensures Delete(node, path).doc == Obj(map[]) <==>
      forall j :: 0 <= j < |path| ==> !Branches(node, path[..j])
    decreases |path|
  {
    var m := node.fields;
    var key := path[0];
    var d := Delete(node, path).doc;
    assert path[..0] == [];
    if |path| == 1 {
      assert d == Obj(m - {key});
      if |m| >= 2 {
        assert Branches(node, path[..0]);
      } else {
        OnlyKey(m, key);
        assert d.fields.Keys == {};
      }
    } else {
      var child := m[key];
      EmptiedExactly(child, path[1..]);
      var sub := Delete(child, path[1..]).doc;
      forall j | 1 <= j < |path|
        ensures Branches(node, path[..j]) == Branches(child, path[1..][..j - 1])
      {
        FirstStep(node, path, j);
        assert path[1..][..j - 1] == path[1..j];
      }
      if sub == Obj(map[]) {
        assert forall j :: 0 <= j < |path| - 1 ==> !Branches(child, path[1..][..j]);
        if |m| >= 2 {
          assert Branches(node, path[..0]);
          assert d != Obj(map[]) by {
            OtherKey(m, key);
            var other :| other in m && other != key;
            assert other in d.fields;
          }
        } else {
          OnlyKey(m, key);
          assert d.fields.Keys == {};
          forall j | 0 <= j < |path|
            ensures !Branches(node, path[..j])
          {
            if j >= 1 {
              assert !Branches(child, path[1..][..j - 1]);
            }
          }
        }
      } else {
        assert key in d.fields;
        var j :| 0 <= j < |path| - 1 && Branches(child, path[1..][..j]);
        assert Branches(node, path[..j + 1]);
      }
    }
  }

  /** Pruning: an ancestor strictly between the root and the target survives
      exactly when it, or some container below it on the path, had a second
      property; every surviving ancestor keeps at least one property. */
  lemma {:induction false} PrunesExactly(node: Json, path: seq<string>, i: nat)
    requires 1 <= i < |path|
    requires Delete(node, path).Removed?
    ensures TraverseObj(Delete(node, path).doc, path[..i]).Found? <==>
      exists j :: i <= j < |path| && Branches(node, path[..j])
    ensures TraverseObj(Delete(node, path).doc, path[..i]).Found? ==>
      var at := TraverseObj(Delete(node, path).doc, path[..i]).value;
      at.Obj? && |at.fields| > 0
    decreases |path|
  {
    var m := node.fields;
    var key := path[0];
    var child := m[key];
    var d := Delete(node, path).doc;
    var sub := Delete(child, path[1..]).doc;
    EmptiedExactly(child, path[1..]);
    forall j | 1 <= j < |path|
      ensures Branches(node, path[..j]) == Branches(child, path[1..][..j - 1])
    {
      FirstStep(node, path, j);
      assert path[1..][..j - 1] == path[1..j];
    }
    if sub == Obj(map[]) {
      assert key !in d.fields;
      assert path[..i][0] == key;
      forall j | i <= j < |path|
        ensures !Branches(node, path[..j])
      {
        assert !Branches(child, path[1..][..j - 1]);
      }
    } else {
      assert d == Obj(m[key := sub]);
      FirstStep(d, path, i);
      assert path[1..][..i - 1] == path[1..i];
      if i == 1 {
        assert path[1..i] == [];
        var j :| 0 <= j < |path| - 1 && Branches(child, path[1..][..j]);
        assert Branches(node, path[..j + 1]);
      } else {
        PrunesExactly(child, path[1..], i - 1);
        if TraverseObj(d, path[..i]).Found? {
          var j :| i - 1 <= j < |path| - 1 && Branches(child, path[1..][..j]);
          assert Branches(node, path[..j + 1]);
        }
        if exists j :: i <= j < |path| && Branches(node, path[..j]) {
          var j :| i <= j < |path| && Branches(node, path[..j]);
          assert Branches(child, path[1..][..j - 1]);
        }
      }
    }
  }

  /** The value returned is the removed target when it is truthy or when
      nothing above it was pruned; a falsy target whose parent was pruned is
      reported as that emptied parent, `{}`. */
  lemma {:induction false} ReturnedValue(node: Json, path: seq<string>)
    requires |path| > 0
    requires Delete(node, path).Removed?
    ensures TraverseObj(node, path).Found?
    ensures var target := TraverseObj(node, path).value;
      Delete(node, path).value ==
        if Truthy(target) || |path| == 1 || Branches(node, path[..|path| - 1]) then target
        else Obj(map[])
    decreases |path|
  {
    Outcomes(node, path);
    if |path| > 1 {
      var m := node.fields;
      var key := path[0];
      var child := m[key];
      var n := |path|;
      ReturnedValue(child, path[1..]);
      FirstStep(node, path, n - 1);
      assert path[1..][..|path[1..]| - 1] == path[1..n - 1];
      var sub := Delete(child, path[1..]).doc;
      if sub == Obj(map[]) {
        EmptiedExactly(child, path[1..]);
        assert !Branches(child, path[1..][..n - 2]);
        if n == 2 {
          assert path[1..][..0] == [];
        }
      } else if n == 2 {
        ParentKept(child, path[1]);
      }
    }
  }

  lemma OtherKey(m: map<string, Json>, key: string)
    requires key in m && |m| >= 2
    ensures exists k :: k in m && k != key
  {
    var rest := m.Keys - {key};
    assert |rest| == |m.Keys| - 1;
    var k :| k in rest;
  }

  lemma OnlyKey(m: map<string, Json>, key: string)
    requires key in m && |m| < 2
    ensures m.Keys == {key}
  {
    var rest := m.Keys - {key};
    assert |rest| == |m.Keys| - 1;
    assert m.Keys == rest + {key};
  }

  /** Removing one property from an object leaves it non-empty only if it
      had a second one (`EmptiedExactly` gives both directions along a
      whole path). */
  lemma ParentKept(parent: Json, key: string)
    requires parent.Obj? && key in parent.fields
    requires Delete(parent, [key]).doc != Obj(map[])
    ensures Branches(parent, [])
  {
    var rest := parent.fields - {key};
    assert rest != map[];
    var other :| other in rest;
    assert other in parent.fields.Keys - {key};
    assert |parent.fields.Keys - {key}| == |parent.fields.Keys| - 1;
  }

  /** Deleting `["a", "b", "c"]` from `{a: {b: {c: 1}}}` prunes `b` and `a`,
      leaving `{}`; with a sibling `d` under `b` pruning stops at `b`. */
  lemma PruningExamples()
    ensures Delete(Obj(map["a" := Obj(map["b" := Obj(map["c" := Num(1)])])]), ["a", "b", "c"])
      == Removed(Obj(map[]), Num(1))
    ensures Delete(Obj(map["a" := Obj(map["b" := Obj(map["c" := Num(1), "d" := Num(2)])])]), ["a", "b", "c"])
      == Removed(Obj(map["a" := Obj(map["b" := Obj(map["d" := Num(2)])])]), Num(1))
  {
    var path := ["a", "b", "c"];
    assert path[1..] == ["b", "c"] && path[1..][1..] == ["c"];
    var c1 := Obj(map["c" := Num(1)]);
    var b1 := Obj(map["b" := c1]);
    assert c1.fields - {"c"} == map[];
    assert Delete(c1, ["c"]) == Removed(Obj(map[]), Num(1));
    assert b1.fields - {"b"} == map[];
    assert Delete(b1, ["b", "c"]) == Removed(Obj(map[]), Num(1));
    var a1 := Obj(map["a" := b1]);
    assert a1.fields - {"a"} == map[];

    var c2 := Obj(map["c" := Num(1), "d" := Num(2)]);
    var b2 := Obj(map["b" := c2]);
    var kept := Obj(map["d" := Num(2)]);
    assert c2.fields - {"c"} == kept.fields;
    assert Delete(c2, ["c"]) == Removed(kept, Num(1));
    assert "d" in kept.fields;
    assert b2.fields["b" := kept] == map["b" := kept];
    assert Delete(b2, ["b", "c"]) == Removed(Obj(map["b" := kept]), Num(1));
  }

  /** `delete` with the evidently intended return value: the pruning is the
      same, but the value returned is always the removed target. */
  function DeleteIntended(node: Json, path: seq<string>): (r: DeleteResult)
    requires |path| > 0
    ensures r.Removed? <==> TraverseObj(node, path).Found?
    ensures r.Removed? ==> TraverseObj(node, path) == Found(r.value)
    decreases |path|
  {
    var key := path[0];
    if node.Null? then DeleteThrew
    else if !node.Obj? then (if |path| == 1 then Absent else DeleteThrew)
    else
      var m := node.fields;
      if |path| == 1 then
        if key in m then Removed(Obj(m - {key}), m[key]) else Absent
      else if key !in m then DeleteThrew
      else
        match DeleteIntended(m[key], path[1..])
        case Removed(child, v) =>
          if child == Obj(map[]) then Removed(Obj(m - {key}), v)
          else Removed(Obj(m[key := child]), v)
        case Absent => Absent
        case DeleteThrew => DeleteThrew
  }

  /** The corrected `delete` prunes exactly like `Delete` and differs from
      it only in the value returned. */
  lemma {:induction false} IntendedAgrees(node: Json, path: seq<string>)
    requires |path| > 0
    ensures DeleteIntended(node, path).Removed? <==> Delete(node, path).Removed?
    ensures DeleteIntended(node, path).Absent? <==> Delete(node, path).Absent?
    ensures DeleteIntended(node, path).Removed? ==>
      DeleteIntended(node, path).doc == Delete(node, path).doc
    decreases |path|
  {
    if |path| > 1 && node.Obj? && path[0] in node.fields {
      IntendedAgrees(node.fields[path[0]], path[1..]);
    }
  }

  /** As written, deleting the falsy `0` at `["a", "b"]` from `{a: {b: 0}}`
      returns the pruned `{}` instead of `0`. */
  lemma FalsyTargetReplaced()
    ensures var doc := Obj(map["a" := Obj(map["b" := Num(0)])]);
      && Get(doc, ["a", "b"]) == Found(Num(0))
      && Delete(doc, ["a", "b"]) == Removed(Obj(map[]), Obj(map[]))
      && DeleteIntended(doc, ["a", "b"]) == Removed(Obj(map[]), Num(0))
  {
    assert ["a", "b"][1..] == ["b"];
    var inner := Obj(map["b" := Num(0)]);
    assert inner.fields - {"b"} == map[];
    assert Delete(inner, ["b"]) == Removed(Obj(map[]), Num(0));
    assert DeleteIntended(inner, ["b"]) == Removed(Obj(map[]), Num(0));
  }
}

=== FILE: suffixes.dfy ===
/** The rename search of `set`: candidate names `key`, `key1`, `key2`, ...,
    always built from the ORIGINAL segment, and the two searches over them. */
module Suffixes {
  import opened JsonTree
  import opened Decimal

  /** The j-th candidate for `key`: the key itself, then the key with the
      decimal suffix `j` appended. */
  function Candidate(key: string, j: nat): (c: string)
    ensures j == 0 ==> c == key
    ensures j > 0 ==> |c| > |key| && c[..|key|] == key
  {
    if j == 0 then key else key + ToDecimal(j)
  }

  /** What follows the original key in candidate `j` reads back as `j`
      alone: suffixes never accumulate onto an earlier candidate (candidate
      2 of `a` is `a2`, not `a12`). */
  lemma CandidateSuffix(key: string, j: nat)
    requires j > 0
    ensures AllDigits(Candidate(key, j)[|key|..])
    ensures ParseDecimal(Candidate(key, j)[|key|..]) == j
  {
    assert Candidate(key, j)[|key|..] == ToDecimal(j);
    ParseToDecimal(j);
  }

  /** Distinct suffixes give distinct names. */
  lemma CandidateInjective(key: string, i: nat, j: nat)
    ensures Candidate(key, i) == Candidate(key, j) ==> i == j
  {
    if i != 0 && j != 0 && Candidate(key, i) == Candidate(key, j) {
      assert ToDecimal(i) == Candidate(key, i)[|key|..];
      assert ToDecimal(j) == Candidate(key, j)[|key|..];
      ToDecimalInjective(i, j);
    }
  }

  /** `name` is one of the names the rename search tries for `key`. */
  ghost predicate CandidateOf(name: string, key: string)
  {
    exists j: nat :: name == Candidate(key, j)
  }

  /** The first `n` candidates. */
  function Candidates(key: string, n: nat): (s: set<string>)
    ensures forall i :: 0 <= i < n ==> Candidate(key, i) in s
  {
    if n == 0 then {} else Candidates(key, n - 1) + {Candidate(key, n - 1)}
  }

  lemma {:induction false} CandidatesOnly(key: string, n: nat, c: string)
    requires c in Candidates(key, n)
    ensures exists i :: 0 <= i < n && c == Candidate(key, i)
  {
    if c != Candidate(key, n - 1) {
      CandidatesOnly(key, n - 1, c);
    }
  }

  lemma {:induction false} CandidatesSize(key: string, n: nat)
    ensures |Candidates(key, n)| == n
  {
    if n > 0 {
      CandidatesSize(key, n - 1);
      if Candidate(key, n - 1) in Candidates(key, n - 1) {
        CandidatesOnly(key, n - 1, Candidate(key, n - 1));
        var i :| 0 <= i < n - 1 && Candidate(key, n - 1) == Candidate(key, i);
        CandidateInjective(key, i, n - 1);
      }
    }
  }

  /** Pigeonhole: an object with finitely many keys cannot hold more than
      `|m|` distinct candidates, so every rename search stops. */
  lemma CandidatesBounded(m: map<string, Json>, key: string, n: nat)
    requires forall i :: 0 <= i < n ==> Candidate(key, i) in m
    ensures n <= |m|
  {
    var s := Candidates(key, n);
    CandidatesSize(key, n);
    forall c | c in s
      ensures c in m.Keys
    {
      CandidatesOnly(key, n, c);
    }
    assert m.Keys == s + (m.Keys - s);
  }

  /** Some candidate among the first `|m| + 1` is not a key of `m`. */
  lemma FreeCandidateExists(m: map<string, Json>, key: string)
    ensures exists j :: 0 <= j <= |m| && Candidate(key, j) !in m
  {
    if forall j :: 0 <= j <= |m| ==> Candidate(key, j) in m {
      CandidatesBounded(m, key, |m| + 1);
    }
  }

  /** Intermediate segment: index of the first candidate that is not a leaf
      node of `m` (an absent key, a scalar or a container holding an object). */
  function IntermediateSlot(m: map<string, Json>, key: string, j: nat): (r: nat)
    requires forall i :: 0 <= i < j ==> LeafAt(m, Candidate(key, i))
    ensures j <= r <= |m|
    ensures !LeafAt(m, Candidate(key, r))
    ensures forall i :: 0 <= i < r ==> LeafAt(m, Candidate(key, i))
    decreases |m| - j
  {
    assert forall i :: 0 <= i < j ==> Candidate(key, i) in m by {
      forall i | 0 <= i < j ensures Candidate(key, i) in m {
        assert LeafAt(m, Candidate(key, i));
      }
    }
    CandidatesBounded(m, key, j);
    if LeafAt(m, Candidate(key, j)) then
      CandidatesBounded(m, key, j + 1);
      IntermediateSlot(m, key, j + 1)
    else
      j
  }

  /** The optional collision policy (`onLeafCollision`), a pure decision on
      `(existing, new)`. */
  datatype Policy = NoPolicy | Merge(decide: (Json, Json) -> bool)

  /** Whether the installed policy merges `incoming` into `existing`;
      without a policy nothing merges. */
  predicate Accepts(policy: Policy, existing: Json, incoming: Json)
  {
    policy.Merge? && policy.decide(existing, incoming)
  }

  /** Outcome of the final-segment search: the chosen candidate index, and
      whether it was chosen because the policy merged into it. */
  datatype Slot = Slot(index: nat, merged: bool)

  /** The candidate at index `i` is occupied and the policy declined it. */
  predicate Declined(m: map<string, Json>, key: string, i: nat, policy: Policy, value: Json)
  {
    Candidate(key, i) in m && !Accepts(policy, m[Candidate(key, i)], value)
  }

  /** Final segment: walk the candidates in order, asking the policy about
      each occupied one; stop at the first it merges into, or else at the
      first candidate that is not an own property. */
  function FinalSlot(m: map<string, Json>, key: string, value: Json, policy: Policy, j: nat): (s: Slot)
    requires forall i :: 0 <= i < j ==> Declined(m, key, i, policy, value)
    ensures j <= s.index <= |m|
    ensures forall i :: 0 <= i < s.index ==> Declined(m, key, i, policy, value)
    ensures s.merged ==> Candidate(key, s.index) in m && Accepts(policy, m[Candidate(key, s.index)], value)
    ensures !s.merged ==> Candidate(key, s.index) !in m
    decreases |m| - j
  {
    assert forall i :: 0 <= i < j ==> Candidate(key, i) in m by {
      forall i | 0 <= i < j ensures Candidate(key, i) in m {
        assert Declined(m, key, i, policy, value);
      }
    }
    CandidatesBounded(m, key, j);
    var c := Candidate(key, j);
    if c !in m then Slot(j, false)
    else if Accepts(policy, m[c], value) then Slot(j, true)
    else
      CandidatesBounded(m, key, j + 1);
      FinalSlot(m, key, value, policy, j + 1)
  }

  /** Without a policy the final search never merges and picks the first
      candidate that is not a key of `m`. */
  lemma NoPolicyPicksFirstFree(m: map<string, Json>, key: string, value: Json)
    ensures var s := FinalSlot(m, key, value, NoPolicy, 0);
      && !s.merged
      && Candidate(key, s.index) !in m
      && forall i :: 0 <= i < s.index ==> Candidate(key, i) in m
  {
    var s := FinalSlot(m, key, value, NoPolicy, 0);
    forall i | 0 <= i < s.index ensures Candidate(key, i) in m {
      assert Declined(m, key, i, NoPolicy, value);
    }
  }
}
